=== FILE: README.md ===
# Router-view instance cache, modelled in Dafny

This project models the caching `RouterView` component of a vue-router fork
(`src/components/view.js`). On every render a router view works out how deep
it is nested and whether it sits in a deactivated kept-alive subtree, picks
the matched route record for that depth, resolves the record's `props`
option and splits it into declared props and passthrough attrs, derives a
cache key in the `arv` namespace, and then either reuses the cached
component instance for that key (moving the key to the most recently used
end) or stores a new entry, pruning the least recently used one when the
`max` capacity is exceeded. Around it sit the instance-registration hooks
that keep `matched.instances[name]` pointing at the live instance, and the
scroll callbacks that save and restore each entry's offset.

Everything is a pure function over immutable values:

- `base.dfy` (`Base`): `Option`, `Result`, duplicate-freedom.
- `prop_maps.dfy` (`PropMaps`): prop bags as entry lists in enumeration order, `delete`, and the prop/attr split.
- `routes.dfy` (`Routes`): route records, components, `props` options and `resolveProps`.
- `depth.dfy` (`Depth`): the walk over ancestors giving depth and inactivity.
- `cache_key.dfy` (`CacheKey`): `split('::')[0]`, `join`, and key composition.
- `view_cache.dfy` (`ViewCache`): the `cache`/`keys` store, `remove`, `pruneCacheEntry`, the hit and miss paths and `destroyed`.
- `scroll.dfy` (`Scroll`): the bodies of `saveScroll`, `setScroll` and the scroll-target lookup.
- `registry.dfy` (`Registry`): the per-slot instance cell and its three hooks.
- `router_view.dfy` (`RouterView`): one `render`, and how it relates to the store.

The `cache` object is a `map<Key, Option<Entry>>`: a pruned slot is set to
`None` (JavaScript `null`) and keeps its key, as the source does. The store
invariant `ViewCache.Valid` says that `keys` has no duplicates and holds
exactly the keys whose slot is non-null; `ViewCache.Bounded` is the `max`
bound with 0 meaning unbounded. Destroying an instance is an output: every
operation that may prune returns the sequence of instance ids it destroys.

Points where the code behaves in a way that is easy to misread, modelled as the code has them:

- The props part of a key is serialized in the bag's entry order, not sorted, so the same props in another insertion order can give a different key (`CacheKey.KeyDependsOnPropOrder` exhibits one). It need not: `[("x","1"), ("x=1&x","1")]` and its reverse both serialize to `x=1&x=1&x=1`, because names and values are not escaped (`CacheKey.KeyOrderCollision`).
- The eviction guard compares the pruned entry's tag with the vnode the view currently shows (`this._vnode`), not with the one being rendered. The guard only skips `$destroy()`: the slot is still nulled and the key still leaves `keys`.
- After `destroyed` the cache object is not empty: every slot is `null`. Only `keys` ends empty.
- `registerRouteInstance(vm, val)` stores `val`, not `vm`, when it registers.

The source clones the resolved props (line 111) before deleting undeclared names, so the delete loop never touches the object `resolveProps` returned. The `$attrs` merge just before it (line 108) does write into that object, which for an object-valued `props` option is the route record's own; with `$attrs` taken to be empty (see "Left out") that write changes nothing. With immutable values the split holds by construction: `PropMaps.SplitProps` returns new bags and leaves its input as it was.

## Model

| member | source | states |
|---|---|---|
| `Depth.BelowRoot` | src/components/view.js:47 | the ancestors visited are a prefix of the chain, none of them the router root, and the walk stops exactly at the first root |
| `Depth.ResolveDepth` | src/components/view.js:45-58 | depth is the number of visited ancestors whose vnode data has `routerView`; inactive holds iff some visited ancestor is kept-alive and `_inactive` |
| `Depth.ResolveDepthStopsAtRoot` | src/components/view.js:47 | ancestors above the router root never change depth or inactivity |
| `Routes.ConfigFor` | src/components/view.js:108 | a missing `props` object or a missing entry for the view name reads as an absent option |
| `Routes.ResolveProps` | src/components/view.js:196-215 | absent, null and `false` give no props; an object is returned as is; a function is applied to the route; `true` gives the route params; any other type gives no props and a warning exactly when not in production |
| `Routes.ResolvePropsTotal` | src/components/view.js:196-215 | props are produced only by an object, a function or `true`, and a warning never comes with props |
| `PropMaps.Delete` | src/components/view.js:117 | deleting a property keeps exactly the entries with another name |
| `PropMaps.SplitProps` | src/components/view.js:109-120 | the in-place `for … in` loop with `delete` leaves exactly the declared entries in order and moves exactly the undeclared ones, in order, into attrs |
| `PropMaps.DeclaredMembers` | src/components/view.js:114-119 | the kept props are the declared entries, the attrs the undeclared entries with their original values, and the two together account for every resolved entry |
| `CacheKey.FirstSegment` | src/components/view.js:128 | `split('::')[0]` is the prefix before the first `::`, or the whole string when there is none |
| `CacheKey.Join` | src/components/view.js:129-134 | joining no parts gives the empty text and joining any parts starts with the first; `JoinFour` and `JoinPairs` fix its value for the two shapes the key uses, four parts with `::` and the pair texts with `&` |
| `CacheKey.HistorySegment` | src/components/view.js:131 | a present, non-empty history key is used as is; an absent or empty one gives "null" |
| `CacheKey.DecimalString` | src/components/view.js:132 | the constructor id is written as its canonical decimal text: non-empty digits whose value is the id, with no leading zero except for 0 itself |
| `CacheKey.SerializeProps` | src/components/view.js:133 | an absent or empty bag serializes to "null"; any other bag to its `k=v` pairs in entry order separated by `&` (the recursive reading `PairsText`) |
| `CacheKey.JoinPairs` | src/components/view.js:133 | mapping the entries to `k=v` and joining with `&` gives the recursive reading `PairsText` |
| `CacheKey.Compose` | src/components/view.js:129-134 | the key is `arv::<history>::<cid>::props|<props>` |
| `CacheKey.ComposeSeparatesProps` | src/components/view.js:129-134 | for one history entry and component, two keys are equal exactly when their props texts are equal |
| `CacheKey.ComposeSeparatesComponents` | src/components/view.js:129-134 | for one history entry and props bag, different constructor ids give different keys |
| `CacheKey.KeyFor` | src/components/view.js:127-136 | a non-empty preset key whose first segment is `arv` is kept; any other key is replaced by exactly the composed `arv::<history>::<cid>::props|<props>`; the result always has first segment `arv` |
| `CacheKey.KeyForIdempotent` | src/components/view.js:127-136 | keying an already keyed vnode again returns the same key, whatever the other inputs |
| `CacheKey.KeyDependsOnPropOrder` | src/components/view.js:133 | one reordering of the same props gives a different key |
| `CacheKey.KeyOrderCollision` | src/components/view.js:133 | another reordering of the same props gives the same key, because names and values are not escaped |
| `ViewCache.Empty` | src/components/view.js:17-23 | a new router view starts with no live entries and no keys, which is valid and within every capacity |
| `ViewCache.IndexOf` | src/components/view.js:180 | `indexOf` is -1 exactly when the key is absent, otherwise the first position holding it |
| `ViewCache.Remove` | src/components/view.js:178-185 | the first occurrence is dropped and the rest keep their order; on a duplicate-free list the key is gone and every other key stays |
| `ViewCache.Prune` | src/components/view.js:187-194 | the slot always becomes `null` and the key always leaves `keys`; the instance is destroyed iff the slot was live and no vnode is shown or its tag differs; validity is kept |
| `ViewCache.Touch` | src/components/view.js:138-141 | a hit keeps every entry and moves the key to the end, the other keys in their old order |
| `ViewCache.Insert` | src/components/view.js:144-155 | a miss stores the new entry and appends its key; within capacity nothing else changes and nothing is destroyed |
| `ViewCache.InsertEvictsOldest` | src/components/view.js:152-155 | on overflow of a valid store the oldest key, which is live and not the new key, leaves `keys` and its slot is nulled; its instance is destroyed unless the shown vnode has its tag |
| `ViewCache.InsertLeavesOthers` | src/components/view.js:143-156 | a miss changes no slot other than the new key's and, on overflow, the oldest key's |
| `ViewCache.InsertKeepsValid` | src/components/view.js:143-156 | on a valid store a miss keeps it valid and within capacity; on overflow exactly the oldest key, never the new one, is evicted, its instance destroyed under the tag guard; every other slot is unchanged |
| `ViewCache.Probe` | src/components/view.js:137-156 | a live key is a hit that keeps the cache; any other key is a miss that stores the new entry; the probed key ends most recently used |
| `ViewCache.ProbeKeepsValid` | src/components/view.js:137-156 | every probe keeps the store valid and within capacity |
| `ViewCache.Teardown` | src/components/view.js:24-28 | pruning every key with no shown vnode nulls every visited slot, destroys the live instances in visiting order, and leaves `keys` empty |
| `ViewCache.TeardownDestroysEveryLiveEntry` | src/components/view.js:24-28 | teardown destroys one instance per key of the recency list, including every live entry's instance |
| `ViewCache.EvictionScenario` | src/components/view.js:143-156 | with capacity 2, misses on A, B, C destroy A's instance and leave keys [B, C] |
| `ViewCache.RefreshScenario` | src/components/view.js:137-156 | with capacity 2, misses on A and B, a hit on A and a miss on C evict B and keep A and C |
| `Scroll.RestoreScroll` | src/components/view.js:167-174 | only an entry with both a target and a saved offset scrolls, to that offset, and its saved offset is then cleared |
| `Scroll.RestoreScrollOnce` | src/components/view.js:169-172 | a second restore does nothing |
| `Scroll.RestoreScenario` | src/components/view.js:167-174 | an entry saved at offset 120 on target T scrolls T to 120 and is left with no saved offset |
| `Scroll.AttachTarget` | src/components/view.js:148-150 | the looked-up target is recorded and the rest of the entry is unchanged |
| `Scroll.SaveScroll` | src/components/view.js:163-166 | saving throws iff the current key has no live entry; with a target the current entry's offset is replaced, without one nothing changes |
| `Scroll.SaveScrollKeepsValid` | src/components/view.js:163-166 | saving on a live current entry succeeds and keeps the store valid |
| `Scroll.SaveThenRestore` | src/components/view.js:163-174 | an offset saved and then restored scrolls the target back to that offset |
| `Scroll.RestoreAt` | src/components/view.js:167-174 | the restore on the store changes only the entry under its key: a live entry scrolls iff it has a target and a saved offset, its target to that offset, and only its saved offset is then cleared; without a command the entry is unchanged; a pruned key does nothing |
| `Scroll.AttachTargetAt` | src/components/view.js:148-150 | the live entry under the key records the looked-up target and keeps the rest; every other slot and the recency list are unchanged |
| `Scroll.ScrollCallbacksKeepValid` | src/components/view.js:148-150 | neither scroll callback changes which keys are live, so the store stays valid |
| `Scroll.AttachSaveRestore` | src/components/view.js:148-174 | recording a target, saving an offset and reusing the entry scrolls that target to that offset, and only once |
| `Registry.Register` | src/components/view.js:79-88 | with an instance `val` the cell takes `val` unless it holds `vm`, and then stays; registering `vm` leaves `vm` in the cell; unregistering never leaves `vm` there and is a no-op unless the cell holds `vm` |
| `Registry.Prepatch` | src/components/view.js:92-94 | the cell takes the patched vnode's instance unconditionally |
| `Registry.Init` | src/components/view.js:98-105 | for a kept-alive vnode with an instance the cell ends holding that instance; otherwise it is unchanged |
| `Registry.RegisterIdempotent` | src/components/view.js:79-88 | registering the same instance twice equals registering it once |
| `Registry.RegisterThenUnregister` | src/components/view.js:79-88 | a registration undone by the same instance empties the cell |
| `Registry.StaleUnregisterKeepsNewer` | src/components/view.js:79-88 | a late unregistration from a superseded instance keeps the newer instance |
| `Registry.RegisterIsTransition` | src/components/view.js:79-88 | each call leaves the cell unchanged, sets it to the caller, or clears it from the caller |
| `RouterView.Created` | src/components/view.js:17-23 | the initial state is valid, with no keys and an empty current key |
| `RouterView.ComponentFor` | src/components/view.js:75 | the view name's component is the record's entry for that name, and there is none exactly when the record lists none |
| `RouterView.Render` | src/components/view.js:29-161 | an active render with a record at its depth records the record's component for the view name, passes on the props warning, and keeps the vnode alive exactly when the record lists a component that builds a component vnode; such a render probes the cache with a fresh entry for the new instance, so the new store and the destroyed instances are the probe's, at most one; its key is `KeyFor` over the preset key, the history key, the component's cid and the declared props only, and becomes the current key, in the `arv` namespace; a component that does not build a component vnode is neither keyed nor cached and leaves the current key; the vnode carries the computed depth; the render fails exactly when an active view's record has no component for the name and its props resolved to a non-empty bag, and the failure keeps the store and records the missing component |
| `RouterView.RenderInactive` | src/components/view.js:61-66 | an inactive view re-emits the last component under the current key and leaves the state untouched |
| `RouterView.RenderUnmatched` | src/components/view.js:68-73 | with no record at the depth the vnode is empty, the slot's component is forgotten and the store kept |
| `RouterView.RenderKeepsValid` | src/components/view.js:137-156 | every render keeps the store valid and, for an unchanged `max`, within capacity |
| `RouterView.RenderHit` | src/components/view.js:137-142 | a live key reuses the cached instance, schedules a restore, keeps the cache, and moves the key to the end |
| `RouterView.RenderMiss` | src/components/view.js:143-156 | a new key stores a fresh entry with no saved scroll for the new instance and schedules a target lookup; on overflow the oldest key, never the new one, is evicted and its instance destroyed under the tag guard; every other slot is unchanged |
| `RouterView.RenderSplitsProps` | src/components/view.js:107-122 | for an active view with a component, the props passed are exactly the declared entries of the resolved bag and the attrs exactly the undeclared ones, in order, every entry on exactly one side; no bag gives no props and no attrs |

## Left out

- `src/util/push-state.js`: user-agent sniffing, `history.pushState`/`replaceState`, `Date.now()` keys and the `location` fallback are browser I/O. The history entry's key is a parameter of key generation.
- The rendering engine: `h()`/`$createElement`, vnode construction and patching, `$nextTick` scheduling and `$destroy()`. Instances are opaque ids, the instance the engine creates for an unseen vnode is an input, destruction is a returned list, and scheduled scroll work is a returned flag.
- `getViewScrollTarget` and `getScroll` touch the DOM (`util/scroll` is not part of this model). The target found after mounting and the offset read from a target are parameters; `scrollTo` is a returned command.
- `Scroll.RestoreAt`: the deferred callback holds the entry object itself. If its slot is pruned before the callback runs, the source still scrolls the orphaned entry's target; the model looks the entry up by key and does nothing for a pruned key.
- `Scroll.AttachTargetAt`: likewise the source records the target on the entry object even after it was pruned, or after its key was refilled by a newer entry; the model updates whatever live entry the key holds.
- The `$attrs` merge of line 108 (`extend` from `util/misc`, not part of this model): `$attrs` is taken to be empty. With non-empty `$attrs` the merge target is the object `resolveProps` returned (for an object-valued option, the route record's own), and for an absent bag it is `undefined`; what `extend` does then is outside this model.
- `PropMaps.IsDeclared`: a component's declared props are a set of names, and a name is declared when it is in that set. The source tests with JavaScript's `in` on the component's `props` option, which also finds inherited names such as `toString` or `constructor` (an undeclared prop with such a name stays in props) and, for an array-form option like `['id']`, tests indices rather than names (so `id` goes to attrs). The options are taken to be normalized objects without such names.
- `Routes.PropsConfig`: a function-valued `props` option is applied to the route's path and params, not to the whole route object, since a datatype cannot hold a function of itself.
- `h(undefined)`: with no component for the view name the engine builds an empty vnode. The model reports it as a view vnode with no component, carrying the depth and props the render had put in its data, and no key.
- Whether building a listed component gives a vnode with component options (a functional component renders to its own output and does not) is an input of the render, `Request.componentVNode`, not derived from the component's definition. Without component options the model reports the component, its props and attrs and the preset key on an unkept vnode; the engine's actual output vnode is not modelled.
- `parseInt(this.max)`: `max` is a natural number.
- JavaScript property order puts integer-like names first; a prop bag is taken to be already in enumeration order. Prop values are represented by their string form, which is what the key serializes.
- A vnode key that is not a string, and a pruned entry whose instance was never mounted (the source would throw), are not modelled: every entry carries an instance id.
- `ViewCache.Teardown`: the `for … in` enumeration order of the cache object is a parameter; the requirement that it lists every key once is the engine's guarantee.
- The warning is returned as its message text; `warn` itself is not modelled.
- `RouterView.RenderKeepsValid`: the capacity bound is stated only for a render with the same `max` as before. If `max` is lowered, the source prunes one entry per miss and the list can stay above the new `max`.
- `PropMaps.SplitProps` is the loop; `RouterView.Render`, being a function, uses the split's reference definitions `Declared`/`Undeclared`, which `SplitProps` is proved to compute.

=== FILE: base.dfy ===
/** Small shared vocabulary: optional values, results, duplicate-freedom. */
module Base {

  /** A JavaScript value that may be `undefined`/`null`. */
  datatype Option<+T> = None | Some(value: T)

  /** The outcome of an operation that may throw. */
  datatype Result<+T, +E> = Success(value: T) | Failure(error: E)

  /** No element occurs twice in `s`. */
  ghost predicate NoDup<T>(s: seq<T>) {
    forall i, j :: 0 <= i < j < |s| ==> s[i] != s[j]
  }
}

=== FILE: cache_key.dfy ===
/**
 * Cache keys (view.js lines 127-136). A key the vnode already carries in
 * the `arv` namespace is kept; otherwise one is composed from the history
 * entry's key, the component constructor id and the serialized props.
 */
module CacheKey {
  import opened Base
  import opened PropMaps

  const Namespace: string := "arv"
  const Separator: string := "::"

  /** `t` is a prefix of `s`. */
  predicate StartsWith(s: string, t: string) {
    |t| <= |s| && s[..|t|] == t
  }

  /** A `::` separator starts at position `j` of `s`. */
  predicate SeparatorAt(s: string, j: int) {
    0 <= j && j + 1 < |s| && s[j] == ':' && s[j + 1] == ':'
  }

  /** The first piece of `s` split at `::`: everything before the first separator, or all of `s`. */
  function FirstSegment(s: string): (r: string)
    ensures r <= s
    ensures forall j :: 0 <= j < |r| ==> !SeparatorAt(s, j)
    ensures |r| < |s| ==> SeparatorAt(s, |r|)
  {
    if |s| < 2 then s
    else if s[0] == ':' && s[1] == ':' then ""
    else
      var rest := FirstSegment(s[1..]);
      assert forall j :: 1 <= j <= |rest| ==> SeparatorAt(s, j) == SeparatorAt(s[1..], j - 1);
      [s[0]] + rest
  }

  /** The parts concatenated with `sep` between neighbours, as JavaScript's array join does. */
  function Join(parts: seq<string>, sep: string): (r: string)
    ensures parts == [] ==> r == ""
    ensures |parts| > 0 ==> StartsWith(r, parts[0])
  {
    if parts == [] then ""
    else if |parts| == 1 then parts[0]
    else parts[0] + sep + Join(parts[1..], sep)
  }

  predicate IsDigit(c: char) {
    '0' <= c <= '9'
  }

  function DigitChar(d: nat): (c: char)
    requires d < 10
    ensures IsDigit(c) && c as int - '0' as int == d
  {
    ('0' as int + d) as char
  }

  /** The number a string of decimal digits denotes, most significant digit first. */
  function DigitsValue(s: string): int
    requires forall c :: c in s ==> IsDigit(c)
  {
    if s == [] then 0
    else
      assert s[|s| - 1] in s;
      DigitsValue(s[..|s| - 1]) * 10 + (s[|s| - 1] as int - '0' as int)
  }

  /** The constructor id converted to a string: decimal digits that denote it. */
  function DecimalString(n: nat): (r: string)
    ensures |r| > 0
    ensures forall c :: c in r ==> IsDigit(c)
    ensures DigitsValue(r) == n
    ensures r[0] == '0' ==> r == "0"
  {
    if n < 10 then
      var r := [DigitChar(n)];
      assert r[..0] == [];
      r
    else
      var high := DecimalString(n / 10);
      var r := high + [DigitChar(n % 10)];
      assert r[..|r| - 1] == high;
      r
  }

  /** Different constructor ids are written differently. */
  lemma DecimalStringInjective(a: nat, b: nat)
    ensures DecimalString(a) == DecimalString(b) ==> a == b
  {
  }

  /** The history entry's key when there is a non-empty one, and "null" otherwise. */
  function HistorySegment(historyKey: Option<string>): (r: string)
    ensures r != ""
    ensures historyKey.Some? && historyKey.value != "" ==> r == historyKey.value
    ensures historyKey.None? || historyKey.value == "" ==> r == "null"
  {
    if historyKey.Some? && historyKey.value != "" then historyKey.value else "null"
  }

  /** One pair written as its name, `=`, and its value. */
  function PairText(e: (string, string)): string {
    e.0 + "=" + e.1
  }

  /** The `k=v` texts of a bag, in entry order. */
  function Pairs(p: PropMap): (r: seq<string>)
    ensures |r| == |p|
    ensures forall i :: 0 <= i < |p| ==> r[i] == PairText(p[i])
  {
    seq(|p|, i requires 0 <= i < |p| => PairText(p[i]))
  }

  /** Reference reading of a non-empty bag's text: the first pair, then `&` and the text of the rest. */
  function PairsText(p: PropMap): string
    requires p != []
  {
    if |p| == 1 then PairText(p[0]) else PairText(p[0]) + "&" + PairsText(p[1..])
  }

  /** Joining the pair texts with `&` is the reference reading. */
  lemma {:induction false} JoinPairs(p: PropMap)
    requires p != []
    ensures Join(Pairs(p), "&") == PairsText(p)
  {
    if |p| > 1 {
      assert Pairs(p)[1..] == Pairs(p[1..]);
      JoinPairs(p[1..]);
    }
  }

  /** The props part: `k=v` pairs joined by `&` in entry order, or "null" for an empty or absent bag. */
  function SerializeProps(props: Option<PropMap>): (r: string)
    ensures r != ""
    ensures props.None? || props.value == [] ==> r == "null"
    ensures props.Some? && props.value != [] ==> r == PairsText(props.value)
  {
    var p := if props.Some? then props.value else [];
    var text := Join(Pairs(p), "&");
    assert p != [] ==> text == PairsText(p) && |PairText(p[0])| > 0 && text != "" by {
      if p != [] {
        JoinPairs(p);
      }
    }
    if text == "" then "null" else text
  }

  /** The composed key `arv::<history>::<cid>::props|<props>`. */
  function Compose(historyKey: Option<string>, cid: nat, props: Option<PropMap>): (r: string)
    ensures r == Namespace + Separator + HistorySegment(historyKey) + Separator + DecimalString(cid)
                 + Separator + "props|" + SerializeProps(props)
  {
    var h := HistorySegment(historyKey);
    var c := DecimalString(cid);
    var p := "props|" + SerializeProps(props);
    JoinFour(Namespace, h, c, p, Separator);
    Join([Namespace, h, c, p], Separator)
  }

  lemma JoinFour(a: string, b: string, c: string, d: string, sep: string)
    ensures Join([a, b, c, d], sep) == a + sep + b + sep + c + sep + d
  {
    assert [a, b, c, d][1..] == [b, c, d];
    assert [b, c, d][1..] == [c, d];
    assert [c, d][1..] == [d];
    assert Join([c, d], sep) == c + sep + d;
    assert Join([b, c, d], sep) == b + sep + (c + sep + d);
  }

  /** Two composed keys for the same history entry and component differ exactly when their props texts differ. */
  lemma ComposeSeparatesProps(h: Option<string>, cid: nat, p1: Option<PropMap>, p2: Option<PropMap>)
    ensures Compose(h, cid, p1) == Compose(h, cid, p2) <==> SerializeProps(p1) == SerializeProps(p2)
  {
    var prefix := Namespace + Separator + HistorySegment(h) + Separator + DecimalString(cid) + Separator + "props|";
    assert Compose(h, cid, p1) == prefix + SerializeProps(p1);
    assert Compose(h, cid, p2) == prefix + SerializeProps(p2);
    if Compose(h, cid, p1) == Compose(h, cid, p2) {
      assert (prefix + SerializeProps(p1))[|prefix|..] == SerializeProps(p1);
      assert (prefix + SerializeProps(p2))[|prefix|..] == SerializeProps(p2);
    }
  }

  /** Two composed keys for the same history entry and props differ when the components differ. */
  lemma ComposeSeparatesComponents(h: Option<string>, c1: nat, c2: nat, props: Option<PropMap>)
    requires c1 != c2
    ensures Compose(h, c1, props) != Compose(h, c2, props)
  {
    var prefix := Namespace + Separator + HistorySegment(h) + Separator;
    var rest := Separator + "props|" + SerializeProps(props);
    var d1 := DecimalString(c1);
    var d2 := DecimalString(c2);
    Regroup(Namespace, Separator, HistorySegment(h), d1, "props|", SerializeProps(props));
    Regroup(Namespace, Separator, HistorySegment(h), d2, "props|", SerializeProps(props));
    SameFrameSameMiddle(prefix, d1, d2, rest);
    DecimalStringInjective(c1, c2);
  }

  lemma Regroup(n: string, sep: string, h: string, d: string, tag: string, p: string)
    ensures n + sep + h + sep + d + sep + tag + p == (n + sep + h + sep) + (d + (sep + tag + p))
  {
  }

  lemma SameFrameSameMiddle(prefix: string, m1: string, m2: string, suffix: string)
    ensures prefix + (m1 + suffix) == prefix + (m2 + suffix) ==> m1 == m2
  {
    if prefix + (m1 + suffix) == prefix + (m2 + suffix) {
      assert m1 == (prefix + (m1 + suffix))[|prefix|..|prefix| + |m1|];
      assert m2 == (prefix + (m2 + suffix))[|prefix|..|prefix| + |m2|];
    }
  }

  /** The preset key is kept: it is non-empty and its first `::` segment is the namespace. */
  predicate KeepsPreset(preset: Option<string>) {
    preset.Some? && preset.value != "" && FirstSegment(preset.value) == Namespace
  }

  lemma NamespacedFirstSegment(s: string)
    requires StartsWith(s, Namespace + Separator)
    ensures FirstSegment(s) == Namespace
  {
    assert s[..5] == "arv::";
    assert SeparatorAt(s, 3);
  }

  /** The key the render uses for a component vnode. */
  function KeyFor(preset: Option<string>, historyKey: Option<string>, cid: nat, props: Option<PropMap>): (r: string)
    ensures KeepsPreset(preset) ==> r == preset.value
    ensures !KeepsPreset(preset) ==> r == Compose(historyKey, cid, props)
    ensures FirstSegment(r) == Namespace
  {
    if KeepsPreset(preset) then preset.value
    else
      var k := Compose(historyKey, cid, props);
      NamespacedFirstSegment(k);
      k
  }

  /** Keying an already keyed vnode again changes nothing, whatever the other inputs. */
  lemma KeyForIdempotent(preset: Option<string>, h: Option<string>, cid: nat, props: Option<PropMap>,
                         h': Option<string>, cid': nat, props': Option<PropMap>)
    ensures var k := KeyFor(preset, h, cid, props); KeyFor(Some(k), h', cid', props') == k
  {
  }

  /**
   * Prop order can matter: here the same two props in the other insertion
   * order give a different key, so two renders that differ only in the
   * order the props were resolved can miss each other in the cache.
   */
  lemma KeyDependsOnPropOrder()
    ensures KeyFor(None, Some("1"), 3, Some([("a", "1"), ("b", "2")]))
         != KeyFor(None, Some("1"), 3, Some([("b", "2"), ("a", "1")]))
  {
    var p1: PropMap := [("a", "1"), ("b", "2")];
    var p2: PropMap := [("b", "2"), ("a", "1")];
    assert PairText(("a", "1")) == "a=1";
    assert PairText(("b", "2")) == "b=2";
    assert Pairs(p1) == ["a=1", "b=2"];
    assert Pairs(p2) == ["b=2", "a=1"];
    assert ["a=1", "b=2"][1..] == ["b=2"];
    assert ["b=2", "a=1"][1..] == ["a=1"];
    assert Join(["a=1", "b=2"], "&") == "a=1" + "&" + "b=2";
    assert Join(["b=2", "a=1"], "&") == "b=2" + "&" + "a=1";
    assert SerializeProps(Some(p1)) == "a=1&b=2";
    assert SerializeProps(Some(p2)) == "b=2&a=1";
    ComposeSeparatesProps(Some("1"), 3, Some(p1), Some(p2));
  }

  /**
   * Prop order need not matter either: names and values are not escaped,
   * so these two orders of the same props serialize to the same text and
   * share one key.
   */
  lemma KeyOrderCollision(h: Option<string>, cid: nat)
    ensures KeyFor(None, h, cid, Some([("x", "1"), ("x=1&x", "1")]))
         == KeyFor(None, h, cid, Some([("x=1&x", "1"), ("x", "1")]))
  {
    var p1: PropMap := [("x", "1"), ("x=1&x", "1")];
    var p2: PropMap := [("x=1&x", "1"), ("x", "1")];
    assert PairText(("x", "1")) == "x=1";
    assert PairText(("x=1&x", "1")) == "x=1&x=1";
    assert PairsText(p1[1..]) == "x=1&x=1";
    assert PairsText(p2[1..]) == "x=1";
    assert PairsText(p1) == "x=1" + "&" + "x=1&x=1";
    assert PairsText(p2) == "x=1&x=1" + "&" + "x=1";
    ComposeSeparatesProps(h, cid, Some(p1), Some(p2));
  }
}

=== FILE: depth.dfy ===
/**
 * The walk up the component tree that yields a router view's nesting depth
 * and whether it sits in a kept-alive subtree that has been deactivated
 * (view.js lines 45-58).
 */
module Depth {
  import opened Base

  /** The flags a parent's own vnode data carries. */
  datatype VNodeData = VNodeData(routerView: bool, keepAlive: bool)

  /**
   * One ancestor, nearest first: whether it is the router root
   * (its router root is itself), its vnode data if it has a vnode with data,
   * and its `_inactive` flag.
   */
  datatype Ancestor = Ancestor(isRouterRoot: bool, data: Option<VNodeData>, inactive: bool)

  datatype Resolution = Resolution(depth: nat, inactive: bool)

  /** The ancestor is itself rendered by a router view. */
  predicate IsView(a: Ancestor) {
    a.data.Some? && a.data.value.routerView
  }

  /** The ancestor is a kept-alive vnode whose instance is currently deactivated. */
  predicate Hides(a: Ancestor) {
    a.data.Some? && a.data.value.keepAlive && a.inactive
  }

  /** The ancestors the walk visits: those strictly below the first router root. */
  function BelowRoot(chain: seq<Ancestor>): (r: seq<Ancestor>)
    ensures r <= chain
    ensures forall a :: a in r ==> !a.isRouterRoot
    ensures |r| < |chain| ==> chain[|r|].isRouterRoot
  {
    if chain == [] || chain[0].isRouterRoot then [] else [chain[0]] + BelowRoot(chain[1..])
  }

  /** Reference count of router views in a list of ancestors. */
  function CountViews(s: seq<Ancestor>): nat {
    if s == [] then 0 else CountViews(s[..|s| - 1]) + (if IsView(s[|s| - 1]) then 1 else 0)
  }

  lemma {:induction false} CountViewsCons(a: Ancestor, s: seq<Ancestor>)
    ensures CountViews([a] + s) == (if IsView(a) then 1 else 0) + CountViews(s)
    decreases |s|
  {
    if s != [] {
      var init := s[..|s| - 1];
      assert ([a] + s)[..|s|] == [a] + init;
      CountViewsCons(a, init);
    }
  }

  /**
   * The depth loop: walking from the parent upwards until the router root
   * (or the top of the tree), count ancestors rendered by a router view and
   * note any deactivated kept-alive ancestor.
   */
  function ResolveDepth(chain: seq<Ancestor>): (r: Resolution)
    ensures r.depth == CountViews(BelowRoot(chain))
    ensures r.inactive <==> exists a :: a in BelowRoot(chain) && Hides(a)
    ensures r.depth <= |BelowRoot(chain)|
  {
    if chain == [] || chain[0].isRouterRoot then Resolution(0, false)
    else
      var rest := ResolveDepth(chain[1..]);
      CountViewsCons(chain[0], BelowRoot(chain[1..]));
      Resolution(rest.depth + (if IsView(chain[0]) then 1 else 0), rest.inactive || Hides(chain[0]))
  }

  /** Ancestors above the router root never influence the result. */
  lemma {:induction false} ResolveDepthStopsAtRoot(below: seq<Ancestor>, root: Ancestor, above: seq<Ancestor>)
    requires forall a :: a in below ==> !a.isRouterRoot
    requires root.isRouterRoot
    ensures ResolveDepth(below + [root] + above) == ResolveDepth(below)
  {
    if below != [] {
      assert (below + [root] + above)[1..] == below[1..] + [root] + above;
      ResolveDepthStopsAtRoot(below[1..], root, above);
    }
  }
}

=== FILE: prop_maps.dfy ===
/**
 * Prop bags. A plain JavaScript object holding resolved props is modelled by
 * its own entries in enumeration order (what `Object.entries` and `for … in`
 * visit), each value by its string form.
 */
module PropMaps {
  import opened Base

  type PropMap = seq<(string, string)>

  /** The property names of a bag, in enumeration order. */
  function Names(p: PropMap): (r: seq<string>)
    ensures |r| == |p|
    ensures forall i :: 0 <= i < |p| ==> r[i] == p[i].0
  {
    seq(|p|, i requires 0 <= i < |p| => p[i].0)
  }

  /** An object never holds the same property twice. */
  ghost predicate WellFormed(p: PropMap) {
    NoDup(Names(p))
  }

  /** `delete obj[k]`: the bag without property `k`, other entries in order. */
  function Delete(p: PropMap, k: string): (r: PropMap)
    ensures forall e :: e in r <==> e in p && e.0 != k
    ensures |r| <= |p|
  {
    if p == [] then []
    else (if p[0].0 == k then [] else [p[0]]) + Delete(p[1..], k)
  }

  lemma {:induction false} DeleteConcat(a: PropMap, b: PropMap, k: string)
    ensures Delete(a + b, k) == Delete(a, k) + Delete(b, k)
  {
    if a == [] {
      assert a + b == b;
    } else {
      assert (a + b)[1..] == a[1..] + b;
      DeleteConcat(a[1..], b, k);
    }
  }

  lemma {:induction false} DeleteAbsent(a: PropMap, k: string)
    requires k !in Names(a)
    ensures Delete(a, k) == a
  {
    if a != [] {
      assert Names(a[1..]) == Names(a)[1..];
      DeleteAbsent(a[1..], k);
    }
  }

  /** Whether `k` is declared in a component's `props` option (absent = nothing declared). */
  predicate IsDeclared(declared: Option<set<string>>, k: string) {
    declared.Some? && k in declared.value
  }

  /** Reference definition: the entries whose name is declared, in order. */
  function Declared(p: PropMap, declared: Option<set<string>>): PropMap {
    if p == [] then []
    else Declared(p[..|p| - 1], declared) + (if IsDeclared(declared, p[|p| - 1].0) then [p[|p| - 1]] else [])
  }

  /** Reference definition: the entries whose name is not declared, in order. */
  function Undeclared(p: PropMap, declared: Option<set<string>>): PropMap {
    if p == [] then []
    else Undeclared(p[..|p| - 1], declared) + (if IsDeclared(declared, p[|p| - 1].0) then [] else [p[|p| - 1]])
  }

  /**
   * The split is a partition: the kept props are exactly the declared
   * entries, the attrs exactly the undeclared ones with their original
   * values, and together they account for every resolved entry.
   */
  lemma {:induction false} DeclaredMembers(p: PropMap, declared: Option<set<string>>)
    ensures forall e :: e in Declared(p, declared) <==> e in p && IsDeclared(declared, e.0)
    ensures forall e :: e in Undeclared(p, declared) <==> e in p && !IsDeclared(declared, e.0)
    ensures |Declared(p, declared)| + |Undeclared(p, declared)| == |p|
  {
    if p != [] {
      var init := p[..|p| - 1];
      DeclaredMembers(init, declared);
      assert p == init + [p[|p| - 1]];
    }
  }

  lemma {:induction false} DeclaredNamesSubset(p: PropMap, declared: Option<set<string>>)
    ensures forall k :: k in Names(Declared(p, declared)) ==> k in Names(p)
  {
    DeclaredMembers(p, declared);
    forall k | k in Names(Declared(p, declared))
      ensures k in Names(p)
    {
      var d := Declared(p, declared);
      var i :| 0 <= i < |d| && Names(d)[i] == k;
      assert d[i] in p;
      var j :| 0 <= j < |p| && p[j] == d[i];
      assert Names(p)[j] == k;
    }
  }

  /** A name occurs at most once, so it is absent before and after its own position. */
  lemma NameOnlyAt(p: PropMap, i: nat)
    requires WellFormed(p) && i < |p|
    ensures p[i].0 !in Names(p[..i])
    ensures p[i].0 !in Names(p[i + 1..])
  {
  }

  /** Visiting entry `i` keeps the copy equal to the declared prefix followed by the unvisited rest. */
  lemma SplitStep(p: PropMap, i: nat, declared: Option<set<string>>)
    requires WellFormed(p) && i < |p|
    ensures Undeclared(p[..i + 1], declared)
         == Undeclared(p[..i], declared) + (if IsDeclared(declared, p[i].0) then [] else [p[i]])
    ensures IsDeclared(declared, p[i].0)
        ==> Declared(p[..i], declared) + p[i..] == Declared(p[..i + 1], declared) + p[i + 1..]
    ensures !IsDeclared(declared, p[i].0)
        ==> Delete(Declared(p[..i], declared) + p[i..], p[i].0) == Declared(p[..i + 1], declared) + p[i + 1..]
  {
    var k := p[i].0;
    var before := Declared(p[..i], declared);
    var after := p[i + 1..];
    assert p[..i + 1][..i] == p[..i];
    assert p[i..] == [p[i]] + after;
    assert before + p[i..] == (before + [p[i]]) + after;
    if !IsDeclared(declared, k) {
      NameOnlyAt(p, i);
      DeclaredNamesSubset(p[..i], declared);
      DeleteConcat(before + [p[i]], after, k);
      DeleteConcat(before, [p[i]], k);
      DeleteAbsent(before, k);
      DeleteAbsent(after, k);
    }
  }

  /**
   * The split of a freshly copied prop bag (view.js lines 109-120): every
   * property the component does not declare is moved, with its value, into
   * the attrs bag and deleted from the copy. The loop mirrors the
   * `for … in` with its in-loop `delete`.
   */
  method SplitProps(resolved: PropMap, declared: Option<set<string>>) returns (props: PropMap, attrs: PropMap)
    requires WellFormed(resolved)
    ensures props == Declared(resolved, declared)
    ensures attrs == Undeclared(resolved, declared)
  {
    props := resolved;
    attrs := [];
    var i := 0;
    while i < |resolved|
      invariant 0 <= i <= |resolved|
      invariant props == Declared(resolved[..i], declared) + resolved[i..]
      invariant attrs == Undeclared(resolved[..i], declared)
    {
      var k := resolved[i].0;
      SplitStep(resolved, i, declared);
      if !IsDeclared(declared, k) {
        attrs := attrs + [resolved[i]];
        props := Delete(props, k);
      }
      i := i + 1;
    }
    assert resolved[..i] == resolved;
  }
}

=== FILE: registry.dfy ===
/**
 * The per-slot instance cell `matched.instances[name]` and the three hooks
 * that write it: `registerRouteInstance`, `prepatch` and `init` (view.js
 * lines 79-105). Each hook is a pure update of the cell.
 */
module Registry {
  import opened Base
  import opened ViewCache

  type Cell = Option<InstanceId>

  /**
   * `registerRouteInstance(vm, val)`: with an instance `val` the cell takes
   * it unless it already holds `vm`; without one (unregistration) the cell
   * is cleared only if it holds `vm`.
   */
  function Register(cell: Cell, vm: InstanceId, val: Option<InstanceId>): (r: Cell)
    ensures val == Some(vm) ==> r == Some(vm)
    ensures val.Some? && cell != Some(vm) ==> r == val
    ensures val.Some? && cell == Some(vm) ==> r == cell
    ensures val.None? ==> r != Some(vm)
    ensures val.None? && cell != Some(vm) ==> r == cell
    ensures r == cell || r == val
  {
    if (val.Some? && cell != Some(vm)) || (val.None? && cell == Some(vm)) then val else cell
  }

  /** `prepatch`: the cell takes the patched vnode's instance, whatever it held. */
  function Prepatch(cell: Cell, instance: Option<InstanceId>): (r: Cell)
    ensures r == instance
  {
    instance
  }

  /** `init`: for a kept-alive vnode whose instance exists and differs from the cell's, the cell takes it. */
  function Init(cell: Cell, keepAlive: bool, instance: Option<InstanceId>): (r: Cell)
    ensures keepAlive && instance.Some? ==> r == instance
    ensures !(keepAlive && instance.Some?) ==> r == cell
  {
    if keepAlive && instance.Some? && instance != cell then instance else cell
  }

  /** Registering the same instance twice is the same as once. */
  lemma RegisterIdempotent(cell: Cell, vm: InstanceId)
    ensures Register(Register(cell, vm, Some(vm)), vm, Some(vm)) == Register(cell, vm, Some(vm))
  {
  }

  /** Registration followed by the same instance's unregistration empties the cell. */
  lemma RegisterThenUnregister(cell: Cell, vm: InstanceId)
    ensures Register(Register(cell, vm, Some(vm)), vm, None) == None
  {
  }

  /**
   * A late unregistration from a superseded instance does not clobber the
   * instance that replaced it.
   */
  lemma StaleUnregisterKeepsNewer(cell: Cell, stale: InstanceId, newer: InstanceId)
    requires stale != newer
    ensures var c := Register(Register(cell, stale, Some(stale)), newer, Some(newer));
      c == Some(newer) && Register(c, stale, None) == Some(newer)
  {
  }

  /** The states of a slot: empty, or held by one instance. */
  predicate Transition(before: Cell, after: Cell, actor: InstanceId) {
    after == before || after == Some(actor) || (before == Some(actor) && after.None?)
  }

  /** Every registration call moves the cell along a legal transition of its state machine. */
  lemma RegisterIsTransition(cell: Cell, vm: InstanceId)
    ensures Transition(cell, Register(cell, vm, Some(vm)), vm)
    ensures Transition(cell, Register(cell, vm, None), vm)
  {
  }
}

=== FILE: router_view.dfy ===
/**
 * One `render` of a router view (view.js lines 29-161): resolve depth and
 * activity, pick the matched record, resolve and split its props, key the
 * vnode and probe the instance cache. The rendering engine is reduced to
 * what the render hands it and what it reads back: the vnode description,
 * the instances to destroy, and the scroll work scheduled for later.
 */
module RouterView {
  import opened Base
  import opened PropMaps
  import opened Routes
  import opened Depth
  import opened CacheKey
  import opened ViewCache

  /**
   * A router view instance's own state: its cache, the key it showed last
   * (`currentKey`) and the component last rendered per view name
   * (`_routerViewCache`, `None` for `null`/`undefined`).
   */
  datatype State = State(store: Store, currentKey: Key, lastComponent: map<string, Option<Component>>)

  /**
   * What one render reads: the `name` and `max` props, the current route,
   * the ancestor chain from `$parent` upwards, the key the freshly built
   * vnode already carries, the history entry's key, the vnode currently
   * shown, the instance the engine creates for a vnode it has not seen,
   * whether building the matched component gives a component vnode (one
   * with component options; a functional component renders to its own
   * output instead), and whether this is a production build.
   */
  datatype Request = Request(
    name: string,
    max: nat,
    route: Route,
    ancestors: seq<Ancestor>,
    presetKey: Option<string>,
    historyKey: Option<string>,
    current: Current,
    instance: InstanceId,
    componentVNode: bool,
    production: bool)

  /**
   * The vnode a render returns: `h()` for an empty one, otherwise the
   * component (none when `h` got `undefined`), the depth recorded in its
   * data, its key, its props and attrs, its `keepAlive` flag and the cached
   * instance it reuses.
   */
  datatype VNode =
    | EmptyVNode
    | ViewVNode(component: Option<Component>, depth: nat, key: Option<Key>, props: Option<PropMap>,
                attrs: PropMap, keepAlive: bool, reused: Option<InstanceId>)

  /**
   * A successful render: the new state, the vnode, the instances destroyed,
   * the props warning, and whether a scroll restore (hit) or a scroll
   * target lookup (miss) was scheduled.
   */
  datatype Rendered = Rendered(state: State, vnode: VNode, destroyed: seq<InstanceId>, warning: Option<string>,
                               restoreScheduled: bool, targetLookupScheduled: bool)

  /**
   * The render throws reading `component.props` when the view name has no
   * component but a non-empty props bag resolved. By then it has already
   * recorded the missing component for the view name and may have warned;
   * the error carries that state and warning.
   */
  datatype RenderError = UndefinedComponent(state: State, warning: Option<string>)

  /** The state `created` sets up. */
  function Created(): (st: State)
    ensures Valid(st.store) && st.store.keys == [] && st.currentKey == ""
  {
    State(Empty(), "", map[])
  }

  /** `rvCache[name]`, reading a missing name as `undefined`. */
  function LastComponent(st: State, name: string): Option<Component> {
    if name in st.lastComponent then st.lastComponent[name] else None
  }

  /** The record's component for the view name, or none when the record has no component by that name. */
  function ComponentFor(record: RouteRecord, name: string): (c: Option<Component>)
    ensures c.Some? <==> name in record.components
    ensures name in record.components ==> c == Some(record.components[name])
  {
    if name in record.components then Some(record.components[name]) else None
  }

  /**
   * One render. Only a keyed render of a component touches the cache; it
   * destroys at most one instance, and the key it uses becomes the current
   * key. The render fails exactly when an active view's matched record has
   * no component for the view name but its props resolved to a non-empty bag.
   */
  function Render(st: State, req: Request): (r: Result<Rendered, RenderError>)
    ensures r.Success? ==> |r.value.destroyed| <= 1
    ensures r.Success? && r.value.vnode.ViewVNode? && r.value.vnode.keepAlive ==>
      r.value.vnode.key == Some(r.value.state.currentKey)
    ensures r.Success? && r.value.state.store != st.store ==>
      r.value.vnode.ViewVNode? && r.value.vnode.keepAlive && r.value.vnode.component.Some?
    ensures r.Success? && r.value.vnode.ViewVNode? ==>
      r.value.vnode.depth == CountViews(BelowRoot(req.ancestors))
    ensures r.Success? && r.value.vnode.ViewVNode? && r.value.vnode.keepAlive ==>
      FirstSegment(r.value.vnode.key.value) == Namespace
    ensures r.Success? && r.value.vnode.ViewVNode? && r.value.vnode.keepAlive ==>
      && r.value.vnode.component.Some?
      && r.value.vnode.key == Some(KeyFor(req.presetKey, req.historyKey, r.value.vnode.component.value.cid, r.value.vnode.props))
    ensures r.Success? && r.value.vnode.ViewVNode? && r.value.vnode.keepAlive ==> req.componentVNode
    ensures r.Success? && r.value.vnode.ViewVNode? && r.value.vnode.keepAlive ==>
      var c := r.value.vnode.component.value;
      var access := Probe(st.store, r.value.vnode.key.value, Entry(c.tag, req.instance, None, None), req.max, req.current);
      r.value.state.store == access.store && r.value.destroyed == access.destroyed
    ensures var res := ResolveDepth(req.ancestors);
      r.Success? && !res.inactive && res.depth < |req.route.matched| ==>
        var record := req.route.matched[res.depth];
        && req.name in r.value.state.lastComponent
        && r.value.state.lastComponent[req.name] == ComponentFor(record, req.name)
        && r.value.warning == ResolveProps(req.route.info, ConfigFor(record, req.name), req.production).warning
        && r.value.vnode.ViewVNode?
        && (r.value.vnode.keepAlive <==> req.name in record.components && req.componentVNode)
    ensures r.Success? && !req.componentVNode ==>
      r.value.state.store == st.store && r.value.state.currentKey == st.currentKey && r.value.destroyed == []
    ensures var res := ResolveDepth(req.ancestors);
      r.Failure? <==>
        && !res.inactive && res.depth < |req.route.matched|
        && req.name !in req.route.matched[res.depth].components
        && var props := ResolveProps(req.route.info, ConfigFor(req.route.matched[res.depth], req.name), req.production).props;
           props.Some? && props.value != []
    ensures r.Failure? ==>
      r.error.state.store == st.store && r.error.state.currentKey == st.currentKey
      && req.name in r.error.state.lastComponent && r.error.state.lastComponent[req.name].None?
  {
    var resolution := ResolveDepth(req.ancestors);
    var depth := resolution.depth;
    if resolution.inactive then
      // render the previous view, keyed as last time, touching nothing
      Success(Rendered(st, ViewVNode(LastComponent(st, req.name), depth, Some(st.currentKey), None, [], false, None),
                       [], None, false, false))
    else if depth >= |req.route.matched| then
      Success(Rendered(st.(lastComponent := st.lastComponent[req.name := None]), EmptyVNode, [], None, false, false))
    else
      var record := req.route.matched[depth];
      var component := ComponentFor(record, req.name);
      var st1 := st.(lastComponent := st.lastComponent[req.name := component]);
      var resolved := ResolveProps(req.route.info, ConfigFor(record, req.name), req.production);
      if component.None? then
        // an empty bag never reaches the component's declared props; `h(undefined)` builds a vnode
        // without component options, so nothing is keyed or cached
        if resolved.props.Some? && resolved.props.value != [] then Failure(UndefinedComponent(st1, resolved.warning))
        else Success(Rendered(st1, ViewVNode(None, depth, None, resolved.props, [], false, None), [], resolved.warning, false, false))
      else
        var props := if resolved.props.Some? then Some(Declared(resolved.props.value, component.value.declared)) else None;
        var attrs := if resolved.props.Some? then Undeclared(resolved.props.value, component.value.declared) else [];
        var c := component.value;
        if !req.componentVNode then
          // no component options on the built vnode: nothing is keyed, cached or made current
          Success(Rendered(st1, ViewVNode(component, depth, req.presetKey, props, attrs, false, None),
                           [], resolved.warning, false, false))
        else
          var key := KeyFor(req.presetKey, req.historyKey, c.cid, props);
          var access := Probe(st.store, key, Entry(c.tag, req.instance, None, None), req.max, req.current);
          var reused := if access.hit.Some? then Some(access.hit.value.instance) else None;
          Success(Rendered(State(access.store, key, st1.lastComponent),
                           ViewVNode(component, depth, Some(key), props, attrs, true, reused),
                           access.destroyed, resolved.warning, access.hit.Some?, access.hit.None?))
  }

  /**
   * Inside a deactivated kept-alive subtree the render re-emits the last
   * component under the last key and leaves the cache and recency list alone.
   */
  lemma RenderInactive(st: State, req: Request)
    requires ResolveDepth(req.ancestors).inactive
    ensures Render(st, req).Success?
    ensures var out := Render(st, req).value;
      && out.state == st
      && out.vnode == ViewVNode(LastComponent(st, req.name), ResolveDepth(req.ancestors).depth,
                                Some(st.currentKey), None, [], false, None)
      && out.destroyed == []
  {
  }

  /** A render beyond the matched records produces `h()`, forgets the slot's component and keeps the cache. */
  lemma RenderUnmatched(st: State, req: Request)
    requires !ResolveDepth(req.ancestors).inactive
    requires ResolveDepth(req.ancestors).depth >= |req.route.matched|
    ensures Render(st, req).Success?
    ensures var out := Render(st, req).value;
      out.vnode.EmptyVNode? && out.state.store == st.store && out.state.currentKey == st.currentKey
      && req.name in out.state.lastComponent && out.state.lastComponent[req.name].None?
  {
  }

  /** Every render keeps the store valid and, for an unchanged `max`, within its capacity. */
  lemma RenderKeepsValid(st: State, req: Request)
    requires Valid(st.store)
    ensures var r := Render(st, req);
      r.Success? ==> Valid(r.value.state.store)
    ensures var r := Render(st, req);
      r.Success? && Bounded(st.store, req.max) ==> Bounded(r.value.state.store, req.max)
  {
    var r := Render(st, req);
    if r.Success? && r.value.state.store != st.store {
      var key := r.value.vnode.key.value;
      var c := r.value.vnode.component.value;
      ProbeKeepsValid(st.store, key, Entry(c.tag, req.instance, None, None), req.max, req.current);
    }
  }

  /**
   * A keyed render whose key is live reuses the cached instance, schedules
   * its scroll restore, keeps every entry, and moves the key to the most
   * recently used end with the other keys in their old order.
   */
  lemma RenderHit(st: State, req: Request)
    ensures var r := Render(st, req);
      r.Success? && r.value.vnode.ViewVNode? && r.value.vnode.keepAlive && IsLive(st.store, r.value.vnode.key.value) ==>
        var key := r.value.vnode.key.value;
        && r.value.vnode.reused == Some(st.store.cache[key].value.instance)
        && r.value.state.store.cache == st.store.cache
        && r.value.state.store.keys == Remove(st.store.keys, key) + [key]
        && r.value.destroyed == []
        && r.value.restoreScheduled && !r.value.targetLookupScheduled
  {
  }

  /**
   * A keyed render whose key is not live on a valid store stores a fresh
   * entry for the new instance with no saved scroll and appends its key.
   * Once the capacity is exceeded the least recently used key is pruned and
   * its instance destroyed unless the shown vnode has its tag; every other
   * entry stays as it was.
   */
  lemma RenderMiss(st: State, req: Request)
    requires Valid(st.store)
    ensures var r := Render(st, req);
      r.Success? && r.value.vnode.ViewVNode? && r.value.vnode.keepAlive && !IsLive(st.store, r.value.vnode.key.value) ==>
        var key := r.value.vnode.key.value;
        var s' := r.value.state.store;
        && r.value.vnode.reused.None?
        && key in s'.cache && s'.cache[key] == Some(Entry(r.value.vnode.component.value.tag, req.instance, None, None))
        && (!Overflows(st.store, req.max) ==> s'.keys == st.store.keys + [key] && r.value.destroyed == [])
        && (Overflows(st.store, req.max) ==>
              var oldest := st.store.cache[st.store.keys[0]].value;
              && st.store.keys[0] != key
              && s'.keys == st.store.keys[1..] + [key] && !IsLive(s', st.store.keys[0])
              && r.value.destroyed ==
                   (if req.current.NoVNode? || req.current.tag != Some(oldest.tag) then [oldest.instance] else []))
        && (forall k :: k in st.store.cache && k != key && !(Overflows(st.store, req.max) && k == st.store.keys[0]) ==>
              k in s'.cache && s'.cache[k] == st.store.cache[k])
        && r.value.targetLookupScheduled && !r.value.restoreScheduled
  {
    var r := Render(st, req);
    if r.Success? && r.value.vnode.ViewVNode? && r.value.vnode.keepAlive && !IsLive(st.store, r.value.vnode.key.value) {
      var c := r.value.vnode.component.value;
      InsertKeepsValid(st.store, r.value.vnode.key.value, Entry(c.tag, req.instance, None, None), req.max, req.current);
    }
  }

  /**
   * In an active view with a matched record and a component, the props
   * passed are exactly the declared entries of the resolved bag and the
   * attrs exactly the undeclared ones, each in the bag's order; every
   * resolved entry lands on exactly one side.
   */
  lemma RenderSplitsProps(st: State, req: Request)
    ensures var res := ResolveDepth(req.ancestors);
      var r := Render(st, req);
      !res.inactive && res.depth < |req.route.matched| && req.name in req.route.matched[res.depth].components ==>
        var c := req.route.matched[res.depth].components[req.name];
        var resolved := ResolveProps(req.route.info, ConfigFor(req.route.matched[res.depth], req.name), req.production).props;
        && r.Success? && r.value.vnode.ViewVNode? && r.value.vnode.component == Some(c)
        && r.value.vnode.props == (if resolved.Some? then Some(Declared(resolved.value, c.declared)) else None)
        && r.value.vnode.attrs == (if resolved.Some? then Undeclared(resolved.value, c.declared) else [])
        && (resolved.Some? ==>
              forall e :: e in resolved.value ==>
                && (e in r.value.vnode.props.value <==> IsDeclared(c.declared, e.0))
                && (e in r.value.vnode.attrs <==> !IsDeclared(c.declared, e.0)))
  {
    var res := ResolveDepth(req.ancestors);
    if !res.inactive && res.depth < |req.route.matched| && req.name in req.route.matched[res.depth].components {
      var c := req.route.matched[res.depth].components[req.name];
      var resolved := ResolveProps(req.route.info, ConfigFor(req.route.matched[res.depth], req.name), req.production).props;
      if resolved.Some? {
        DeclaredMembers(resolved.value, c.declared);
      }
    }
  }
}

=== FILE: routes.dfy ===
/**
 * Route records as the router view consumes them, and the resolution of a
 * slot's `props` option into a prop bag (view.js lines 196-215).
 */
module Routes {
  import opened Base
  import opened PropMaps

  /** What a function-valued `props` option is given: the current route's path and params. */
  datatype RouteInfo = RouteInfo(path: string, params: PropMap)

  /**
   * A slot's `props` option, by its JavaScript type: absent (`undefined`),
   * an object (possibly `null`), a function of the route, a boolean, or a
   * value of some other type, named by what `typeof` reports for it.
   */
  datatype PropsConfig =
    | Absent
    | NullObject
    | Static(props: PropMap)
    | Derived(f: RouteInfo -> Option<PropMap>)
    | Flag(b: bool)
    | Unsupported(typeName: string)

  /** A component definition: its constructor id, its vnode tag and its declared props, if any. */
  datatype Component = Component(cid: nat, tag: string, declared: Option<set<string>>)

  /** One matched route record: components and props options per named view. */
  datatype RouteRecord = RouteRecord(components: map<string, Component>, props: Option<map<string, PropsConfig>>)

  datatype Route = Route(info: RouteInfo, matched: seq<RouteRecord>)

  /** The resolved props and the development-mode warning, if one was issued. */
  datatype Resolved = Resolved(props: Option<PropMap>, warning: Option<string>)

  /** The record's props option for the view name: no props object, or no entry for the name, reads as absent. */
  function ConfigFor(record: RouteRecord, name: string): (c: PropsConfig)
    ensures record.props.None? ==> c.Absent?
    ensures record.props.Some? && name !in record.props.value ==> c.Absent?
    ensures record.props.Some? && name in record.props.value ==> c == record.props.value[name]
  {
    match record.props
    case None => Absent
    case Some(options) => if name in options then options[name] else Absent
  }

  /** The development-mode message for a `props` option of an unsupported type. */
  function UnsupportedMessage(path: string, typeName: string): string {
    "props in \"" + path + "\" is a " + typeName + ", expecting an object, function or boolean."
  }

  /** `resolveProps(route, config)`, with `production` standing for `process.env.NODE_ENV === 'production'`. */
  function ResolveProps(route: RouteInfo, config: PropsConfig, production: bool): (r: Resolved)
    ensures config.Static? ==> r.props == Some(config.props)
    ensures config.Derived? ==> r.props == config.f(route)
    ensures config.Flag? && config.b ==> r.props == Some(route.params)
    ensures config.Absent? || config.NullObject? || config.Unsupported? || (config.Flag? && !config.b)
        ==> r.props.None?
    ensures r.warning.Some? <==> config.Unsupported? && !production
    ensures r.warning.Some? ==> r.warning.value == UnsupportedMessage(route.path, config.typeName)
  {
    match config
    case Absent => Resolved(None, None)
    case NullObject => Resolved(None, None)
    case Static(props) => Resolved(Some(props), None)
    case Derived(f) => Resolved(f(route), None)
    case Flag(b) => Resolved(if b then Some(route.params) else None, None)
    case Unsupported(typeName) =>
      Resolved(None, if production then None else Some(UnsupportedMessage(route.path, typeName)))
  }

  /**
   * Resolution never fails: every option yields a bag or none, and only an
   * unsupported option yields none while warning.
   */
  lemma ResolvePropsTotal(route: RouteInfo, config: PropsConfig, production: bool)
    ensures var r := ResolveProps(route, config, production);
      r.props.Some? ==> config.Static? || config.Derived? || (config.Flag? && config.b)
    ensures var r := ResolveProps(route, config, production);
      r.warning.Some? ==> r.props.None?
  {
  }
}

=== FILE: scroll.dfy ===
/**
 * The bodies of the scroll callbacks: capturing the shown entry's offset
 * (`saveScroll`, view.js lines 163-166), restoring a reused entry's offset
 * (the deferred body of `setScroll`, lines 167-174) and recording the
 * scroll target found after a fresh entry is mounted (lines 148-150). The
 * deferral itself and the DOM reads and writes are outside the model: the
 * offset read from a target is a parameter, and a restore is returned as a
 * command.
 */
module Scroll {
  import opened Base
  import opened ViewCache

  /** A command to scroll a target element to a position. */
  datatype ScrollTo = ScrollTo(target: TargetId, position: Position)

  datatype Restored = Restored(entry: Entry, command: Option<ScrollTo>)

  /** Why `saveScroll` throws: the slot under the current key is missing or pruned. */
  datatype ScrollError = NoCurrentEntry

  /**
   * The deferred restore: only an entry with both a target and a saved
   * offset scrolls, after which its saved offset is cleared to `false`.
   */
  function RestoreScroll(e: Entry): (r: Restored)
    ensures r.command.Some? <==> e.scrollTarget.Some? && e.scroll.Some?
    ensures r.command.Some? ==> r.command.value == ScrollTo(e.scrollTarget.value, e.scroll.value)
    ensures r.command.Some? ==> r.entry == e.(scroll := None)
    ensures r.command.None? ==> r.entry == e
  {
    if e.scrollTarget.Some? && e.scroll.Some? then
      Restored(e.(scroll := None), Some(ScrollTo(e.scrollTarget.value, e.scroll.value)))
    else Restored(e, None)
  }

  /** A restore has no further effect when it fires a second time. */
  lemma RestoreScrollOnce(e: Entry)
    ensures RestoreScroll(RestoreScroll(e).entry).command.None?
    ensures RestoreScroll(RestoreScroll(e).entry).entry == RestoreScroll(e).entry
  {
  }

  /** The `$nextTick` after a miss stores the target looked up from the mounted element. */
  function AttachTarget(e: Entry, target: Option<TargetId>): (r: Entry)
    ensures r.scrollTarget == target
    ensures r.tag == e.tag && r.instance == e.instance && r.scroll == e.scroll
  {
    e.(scrollTarget := target)
  }

  /**
   * `saveScroll()` on the entry under `currentKey`: with a target, its
   * offset becomes `offset` (what `getScroll` reads from the target);
   * without one nothing changes; without a live entry the call throws.
   */
  function SaveScroll(s: Store, currentKey: Key, offset: Position): (r: Result<Store, ScrollError>)
    ensures r.Failure? <==> !IsLive(s, currentKey)
    ensures r.Success? ==> r.value.keys == s.keys && r.value.cache.Keys == s.cache.Keys
    ensures r.Success? ==> forall k :: k in s.cache && k != currentKey ==> r.value.cache[k] == s.cache[k]
    ensures r.Success? && s.cache[currentKey].value.scrollTarget.Some? ==>
      r.value.cache[currentKey] == Some(s.cache[currentKey].value.(scroll := Some(offset)))
    ensures r.Success? && s.cache[currentKey].value.scrollTarget.None? ==> r.value == s
  {
    if !IsLive(s, currentKey) then Failure(NoCurrentEntry)
    else
      var e := s.cache[currentKey].value;
      if e.scrollTarget.Some? then Success(s.(cache := s.cache[currentKey := Some(e.(scroll := Some(offset)))]))
      else Success(s)
  }

  /** Saving leaves the store's recency list and live keys as they were, so validity is kept. */
  lemma SaveScrollKeepsValid(s: Store, currentKey: Key, offset: Position)
    requires Valid(s) && IsLive(s, currentKey)
    ensures SaveScroll(s, currentKey, offset).Success?
    ensures Valid(SaveScroll(s, currentKey, offset).value)
  {
  }

  /** Saving an offset and then restoring that entry scrolls its target back to the saved offset. */
  lemma SaveThenRestore(s: Store, currentKey: Key, offset: Position)
    requires IsLive(s, currentKey) && s.cache[currentKey].value.scrollTarget.Some?
    ensures var saved := SaveScroll(s, currentKey, offset).value.cache[currentKey].value;
      RestoreScroll(saved).command == Some(ScrollTo(s.cache[currentKey].value.scrollTarget.value, offset))
  {
  }

  /** A restore applied to the live entry under a key: the new store and the scroll command, if any. */
  datatype RestoredAt = RestoredAt(store: Store, command: Option<ScrollTo>)

  /**
   * The deferred restore on the store: a live entry under `key` is restored
   * in place; a key pruned in the meantime has no entry to restore.
   */
  function RestoreAt(s: Store, key: Key): (r: RestoredAt)
    ensures r.store.keys == s.keys && r.store.cache.Keys == s.cache.Keys
    ensures forall k :: k in s.cache && k != key ==> r.store.cache[k] == s.cache[k]
    ensures !IsLive(s, key) ==> r == RestoredAt(s, None)
    ensures IsLive(s, key) ==>
      var e := s.cache[key].value;
      && (r.command.Some? <==> e.scrollTarget.Some? && e.scroll.Some?)
      && (r.command.Some? ==> r.command.value == ScrollTo(e.scrollTarget.value, e.scroll.value))
      && IsLive(r.store, key)
      && (r.command.Some? ==> r.store.cache[key] == Some(e.(scroll := None)))
      && (r.command.None? ==> r.store.cache[key] == Some(e))
  {
    if IsLive(s, key) then
      var out := RestoreScroll(s.cache[key].value);
      RestoredAt(s.(cache := s.cache[key := Some(out.entry)]), out.command)
    else RestoredAt(s, None)
  }

  /** The store-level callback after a miss: the live entry under `key` records the target; others are untouched. */
  function AttachTargetAt(s: Store, key: Key, target: Option<TargetId>): (r: Store)
    ensures r.keys == s.keys && r.cache.Keys == s.cache.Keys
    ensures forall k :: k in s.cache && k != key ==> r.cache[k] == s.cache[k]
    ensures !IsLive(s, key) ==> r == s
    ensures IsLive(s, key) ==> IsLive(r, key) && r.cache[key].value == AttachTarget(s.cache[key].value, target)
  {
    if IsLive(s, key) then s.(cache := s.cache[key := Some(AttachTarget(s.cache[key].value, target))]) else s
  }

  /** Neither scroll callback changes which keys are live, so both keep the store valid. */
  lemma ScrollCallbacksKeepValid(s: Store, key: Key, target: Option<TargetId>)
    requires Valid(s)
    ensures Valid(RestoreAt(s, key).store)
    ensures Valid(AttachTargetAt(s, key, target))
  {
  }

  /**
   * The whole scroll round trip on one live entry: the target is recorded
   * after mounting, the offset is saved when the view is left, and reusing
   * the entry scrolls that target back to that offset exactly once.
   */
  lemma AttachSaveRestore(s: Store, key: Key, t: TargetId, offset: Position)
    requires IsLive(s, key)
    ensures var attached := AttachTargetAt(s, key, Some(t));
      var saved := SaveScroll(attached, key, offset);
      && saved.Success?
      && RestoreAt(saved.value, key).command == Some(ScrollTo(t, offset))
      && RestoreAt(RestoreAt(saved.value, key).store, key).command.None?
  {
    var attached := AttachTargetAt(s, key, Some(t));
    assert IsLive(attached, key) && attached.cache[key].value.scrollTarget == Some(t);
    var saved := SaveScroll(attached, key, offset);
    SaveThenRestore(attached, key, offset);
  }

  /**
   * An entry saved at offset 120 on target T and then reused: the restore
   * scrolls T to 120 and clears the saved offset.
   */
  lemma RestoreScenario(tag: string, instance: InstanceId, t: TargetId)
    ensures var e := Entry(tag, instance, Some(Position(0, 120)), Some(t));
      RestoreScroll(e) == Restored(e.(scroll := None), Some(ScrollTo(t, Position(0, 120))))
  {
  }
}

=== FILE: view_cache.dfy ===
/**
 * The router view's cache of rendered component instances: the `cache`
 * object (key to entry, pruned slots set to `null`) and the recency list
 * `keys`, most recently used last (view.js lines 17-28, 137-156, 178-194).
 */
module ViewCache {
  import opened Base

  type Key = string

  /** An opaque component instance. */
  type InstanceId = nat

  /** An opaque scrollable element. */
  type TargetId = nat

  datatype Position = Position(x: int, y: int)

  /**
   * One cache entry: the tag and component instance of the cached vnode,
   * the saved scroll offset (`None` for `false`) and the scroll target once
   * it has been looked up (`None` while `undefined`).
   */
  datatype Entry = Entry(tag: string, instance: InstanceId, scroll: Option<Position>, scrollTarget: Option<TargetId>)

  datatype Store = Store(cache: map<Key, Option<Entry>>, keys: seq<Key>)

  /** The vnode the router view currently shows (`this._vnode`), or none; its tag may be undefined. */
  datatype Current = NoVNode | Shown(tag: Option<string>)

  /** The effect of pruning: the new store and the instances destroyed, in order. */
  datatype Pruned = Pruned(store: Store, destroyed: seq<InstanceId>)

  /** The store a router view starts with in `created`: nothing live, nothing listed, within every capacity. */
  function Empty(): (s: Store)
    ensures Valid(s) && s.keys == []
    ensures forall k :: !IsLive(s, k)
    ensures forall max: nat :: Bounded(s, max)
  {
    Store(map[], [])
  }

  /** `cache[key]` is truthy. */
  predicate IsLive(s: Store, k: Key) {
    k in s.cache && s.cache[k].Some?
  }

  /** The recency list holds each live key exactly once, and nothing else. */
  ghost predicate Valid(s: Store) {
    NoDup(s.keys) && forall k :: k in s.keys <==> IsLive(s, k)
  }

  /** The capacity bound, with 0 meaning unbounded. */
  predicate Bounded(s: Store, max: nat) {
    max == 0 || |s.keys| <= max
  }

  /** `arr.indexOf(item)`: the first position of `k`, or -1. */
  function IndexOf(keys: seq<Key>, k: Key): (r: int)
    ensures -1 <= r < |keys|
    ensures r == -1 <==> k !in keys
    ensures 0 <= r ==> keys[r] == k && k !in keys[..r]
  {
    if keys == [] then -1
    else if keys[0] == k then 0
    else
      var i := IndexOf(keys[1..], k);
      assert 0 <= i ==> keys[..i + 1] == [keys[0]] + keys[1..][..i];
      if i == -1 then -1 else i + 1
  }

  /** `remove(keys, key)`: drop the first occurrence of `k`, keeping the order of the rest. */
  function Remove(keys: seq<Key>, k: Key): (r: seq<Key>)
    ensures k !in keys ==> r == keys
    ensures k in keys ==> exists i :: 0 <= i < |keys| && keys[i] == k && k !in keys[..i] && r == keys[..i] + keys[i + 1..]
    ensures NoDup(keys) ==> NoDup(r) && k !in r
    ensures forall x :: x != k ==> (x in r <==> x in keys)
    ensures |r| == if k in keys then |keys| - 1 else |keys|
  {
    if |keys| == 0 then keys
    else
      var i := IndexOf(keys, k);
      if i > -1 then
        var r := keys[..i] + keys[i + 1..];
        assert keys == keys[..i] + [k] + keys[i + 1..];
        assert forall a, b :: 0 <= a < b < |r| ==> r[a] == keys[if a < i then a else a + 1] && r[b] == keys[if b < i then b else b + 1];
        r
      else keys
  }

  /**
   * `pruneCacheEntry(cache, key, keys, current)`: the slot is always set to
   * `null` and the key always leaves the recency list; the instance is
   * destroyed only when the slot was live and no vnode is shown or the
   * shown vnode has a different tag.
   */
  function Prune(s: Store, key: Key, current: Current): (r: Pruned)
    ensures key in r.store.cache && !IsLive(r.store, key)
    ensures forall k :: k != key ==> (k in r.store.cache <==> k in s.cache)
    ensures forall k :: k != key && k in s.cache ==> r.store.cache[k] == s.cache[k]
    ensures r.store.keys == Remove(s.keys, key)
    ensures r.destroyed != [] <==> IsLive(s, key) && (current.NoVNode? || current.tag != Some(s.cache[key].value.tag))
    ensures r.destroyed != [] ==> r.destroyed == [s.cache[key].value.instance]
    ensures Valid(s) ==> Valid(r.store) && key !in r.store.keys
  {
    var destroyed :=
      if IsLive(s, key) && (current.NoVNode? || current.tag != Some(s.cache[key].value.tag))
      then [s.cache[key].value.instance] else [];
    Pruned(Store(s.cache[key := None], Remove(s.keys, key)), destroyed)
  }

  /** The hit path: the key moves to the most recently used end, the entries stay as they are. */
  function Touch(s: Store, key: Key): (r: Store)
    ensures r.cache == s.cache
    ensures |r.keys| > 0 && r.keys[|r.keys| - 1] == key
    ensures r.keys[..|r.keys| - 1] == Remove(s.keys, key)
    ensures Valid(s) && IsLive(s, key) ==> Valid(r) && |r.keys| == |s.keys|
  {
    var keys := Remove(s.keys, key) + [key];
    assert keys[..|keys| - 1] == Remove(s.keys, key);
    Store(s.cache, keys)
  }

  /** The capacity is exceeded once the new key is appended: a non-zero `max` below the list's new length. */
  predicate Overflows(s: Store, max: nat) {
    max != 0 && |s.keys| + 1 > max
  }

  /**
   * The miss path: store the new entry, append its key, then prune the
   * least recently used key if the capacity is exceeded, guarded by the
   * vnode currently shown.
   */
  function Insert(s: Store, key: Key, entry: Entry, max: nat, current: Current): (r: Pruned)
    ensures key !in s.keys ==> key in r.store.cache && r.store.cache[key] == Some(entry)
    ensures |r.store.keys| > 0 && r.store.keys[|r.store.keys| - 1] == key
    ensures !Overflows(s, max) ==> r.store == Store(s.cache[key := Some(entry)], s.keys + [key]) && r.destroyed == []
    ensures |r.destroyed| <= 1
  {
    var added := Store(s.cache[key := Some(entry)], s.keys + [key]);
    if max != 0 && |added.keys| > max then Prune(added, added.keys[0], current)
    else Pruned(added, [])
  }

  /** On overflow the least recently used key, which is live and is not the new key, is the one evicted. */
  lemma InsertEvictsOldest(s: Store, key: Key, entry: Entry, max: nat, current: Current)
    requires Valid(s) && !IsLive(s, key) && Overflows(s, max)
    ensures var p := Insert(s, key, entry, max, current);
      var oldest := s.cache[s.keys[0]].value;
      && |s.keys| > 0 && s.keys[0] != key && IsLive(s, s.keys[0])
      && p.store.keys == s.keys[1..] + [key]
      && !IsLive(p.store, s.keys[0])
      && p.destroyed == (if current.NoVNode? || current.tag != Some(oldest.tag) then [oldest.instance] else [])
  {
    var added := Store(s.cache[key := Some(entry)], s.keys + [key]);
    assert s.keys[0] in s.keys && added.keys[0] == s.keys[0];
    assert IndexOf(added.keys, s.keys[0]) == 0;
    assert added.keys[1..] == s.keys[1..] + [key];
  }

  /** A miss changes no entry other than the new key's and the evicted one's. */
  lemma InsertLeavesOthers(s: Store, key: Key, entry: Entry, max: nat, current: Current)
    ensures forall k :: k in s.cache && k != key && !(Overflows(s, max) && |s.keys| > 0 && k == s.keys[0]) ==>
      var r := Insert(s, key, entry, max, current).store;
      k in r.cache && r.cache[k] == s.cache[k]
  {
  }

  /**
   * A miss on a valid store: the store stays valid; when the capacity is
   * exceeded exactly the least recently used key, never the new one, is
   * evicted from both the recency list and the live entries, and its
   * instance is destroyed unless the shown vnode has the same tag; every
   * other entry is left as it was.
   */
  lemma InsertKeepsValid(s: Store, key: Key, entry: Entry, max: nat, current: Current)
    requires Valid(s) && !IsLive(s, key)
    ensures Valid(Insert(s, key, entry, max, current).store)
    ensures Overflows(s, max) ==>
      var p := Insert(s, key, entry, max, current);
      var oldest := s.cache[s.keys[0]].value;
      && |s.keys| > 0 && s.keys[0] != key && IsLive(s, s.keys[0])
      && p.store.keys == s.keys[1..] + [key]
      && !IsLive(p.store, s.keys[0])
      && p.destroyed == (if current.NoVNode? || current.tag != Some(oldest.tag) then [oldest.instance] else [])
    ensures forall k :: k in s.cache && k != key && !(Overflows(s, max) && k == s.keys[0]) ==>
      var r := Insert(s, key, entry, max, current).store;
      k in r.cache && r.cache[k] == s.cache[k]
    ensures Bounded(s, max) ==> Bounded(Insert(s, key, entry, max, current).store, max)
  {
    if Overflows(s, max) {
      InsertEvictsOldest(s, key, entry, max, current);
    }
    InsertLeavesOthers(s, key, entry, max, current);
  }

  /** The outcome of one cache probe: the new store, the entry reused on a hit, the instances destroyed on a miss. */
  datatype Access = Access(store: Store, hit: Option<Entry>, destroyed: seq<InstanceId>)

  /** The hit-or-miss branch on whether the key's slot is live (view.js lines 137-156). */
  function Probe(s: Store, key: Key, entry: Entry, max: nat, current: Current): (r: Access)
    ensures IsLive(s, key) ==> r.hit == s.cache[key] && r.store.cache == s.cache && r.destroyed == []
    ensures !IsLive(s, key) ==> r.hit.None?
    ensures !IsLive(s, key) && key !in s.keys ==> key in r.store.cache && r.store.cache[key] == Some(entry)
    ensures |r.store.keys| > 0 && r.store.keys[|r.store.keys| - 1] == key
  {
    if IsLive(s, key) then Access(Touch(s, key), s.cache[key], [])
    else
      var p := Insert(s, key, entry, max, current);
      Access(p.store, None, p.destroyed)
  }

  /** Every probe of a valid store within its capacity leaves it valid and within its capacity. */
  lemma ProbeKeepsValid(s: Store, key: Key, entry: Entry, max: nat, current: Current)
    requires Valid(s)
    ensures Valid(Probe(s, key, entry, max, current).store)
    ensures Bounded(s, max) ==> Bounded(Probe(s, key, entry, max, current).store, max)
  {
    if IsLive(s, key) {
      var t := Touch(s, key);
      assert Valid(t) && |t.keys| == |s.keys|;
    } else {
      InsertKeepsValid(s, key, entry, max, current);
    }
  }

  /** The instances of the live entries among `order`, in that order. */
  function LiveInstances(cache: map<Key, Option<Entry>>, order: seq<Key>): seq<InstanceId> {
    if order == [] then []
    else
      (if order[0] in cache && cache[order[0]].Some? then [cache[order[0]].value.instance] else [])
      + LiveInstances(cache, order[1..])
  }

  lemma {:induction false} LiveInstancesFrame(c1: map<Key, Option<Entry>>, c2: map<Key, Option<Entry>>, order: seq<Key>)
    requires forall k :: k in order ==> (k in c1 <==> k in c2) && (k in c1 ==> c1[k] == c2[k])
    ensures LiveInstances(c1, order) == LiveInstances(c2, order)
  {
    if order != [] {
      LiveInstancesFrame(c1, c2, order[1..]);
    }
  }

  /**
   * `destroyed`: prune every key of the cache, in enumeration order, with
   * no vnode shown. Every live instance is destroyed, every slot is set to
   * `null`, and the recency list ends empty.
   */
  function Teardown(s: Store, order: seq<Key>): (r: Pruned)
    requires NoDup(order)
    ensures forall k :: k in r.store.cache <==> k in s.cache || k in order
    ensures forall k :: k in order ==> !IsLive(r.store, k)
    ensures forall k :: k in s.cache && k !in order ==> r.store.cache[k] == s.cache[k]
    ensures r.destroyed == LiveInstances(s.cache, order)
    ensures Valid(s) ==> Valid(r.store)
    ensures Valid(s) && (forall k :: k in s.cache ==> k in order) ==> r.store.keys == []
    decreases |order|
  {
    if order == [] then
      assert Valid(s) && s.keys != [] ==> IsLive(s, s.keys[0]);
      Pruned(s, [])
    else
      var p := Prune(s, order[0], NoVNode);
      assert NoDup(order[1..]);
      var t := Teardown(p.store, order[1..]);
      LiveInstancesFrame(s.cache, p.store.cache, order[1..]);
      var r := Pruned(t.store, p.destroyed + t.destroyed);
      assert Valid(s) && r.store.keys != [] ==> IsLive(r.store, r.store.keys[0]);
      r
  }

  /** The set of keys with a live entry among `order`. */
  function LiveKeys(cache: map<Key, Option<Entry>>, order: seq<Key>): set<Key> {
    set k | k in order && k in cache && cache[k].Some?
  }

  lemma {:induction false} LiveInstancesCount(cache: map<Key, Option<Entry>>, order: seq<Key>)
    requires NoDup(order)
    ensures |LiveInstances(cache, order)| == |LiveKeys(cache, order)|
  {
    if order != [] {
      LiveInstancesCount(cache, order[1..]);
      var k := order[0];
      var rest := LiveKeys(cache, order[1..]);
      assert k !in order[1..];
      if k in cache && cache[k].Some? {
        assert LiveKeys(cache, order) == {k} + rest;
      } else {
        assert LiveKeys(cache, order) == rest;
      }
    }
  }

  lemma {:induction false} DistinctCount(s: seq<Key>)
    requires NoDup(s)
    ensures |set k | k in s| == |s|
  {
    if s != [] {
      DistinctCount(s[1..]);
      assert (set k | k in s) == {s[0]} + (set k | k in s[1..]);
      assert s[0] !in s[1..];
    }
  }

  /**
   * Tearing down a valid store, with every cached key visited once,
   * destroys exactly as many instances as there were keys in the recency
   * list: one per live entry.
   */
  lemma TeardownDestroysEveryLiveEntry(s: Store, order: seq<Key>)
    requires Valid(s) && NoDup(order)
    requires forall k :: k in s.cache <==> k in order
    ensures |Teardown(s, order).destroyed| == |s.keys|
    ensures forall k :: k in s.keys ==> s.cache[k].value.instance in Teardown(s, order).destroyed
    ensures Teardown(s, order).store.keys == []
  {
    LiveInstancesCount(s.cache, order);
    assert LiveKeys(s.cache, order) == set k | k in s.keys;
    DistinctCount(s.keys);
    forall k | k in s.keys
      ensures s.cache[k].value.instance in LiveInstances(s.cache, order)
    {
      LiveInstanceListed(s.cache, order, k);
    }
  }

  lemma {:induction false} LiveInstanceListed(cache: map<Key, Option<Entry>>, order: seq<Key>, k: Key)
    requires k in order && k in cache && cache[k].Some?
    ensures cache[k].value.instance in LiveInstances(cache, order)
  {
    if order[0] != k {
      LiveInstanceListed(cache, order[1..], k);
    }
  }

  /** Capacity 2, misses on A, B, C: A is evicted (and destroyed) and the recency list is [B, C]. */
  lemma EvictionScenario(a: Entry, b: Entry, c: Entry)
    ensures var s1 := Probe(Empty(), "A", a, 2, NoVNode).store;
      var s2 := Probe(s1, "B", b, 2, NoVNode).store;
      var r := Probe(s2, "C", c, 2, NoVNode);
      && r.store.keys == ["B", "C"]
      && r.destroyed == [a.instance]
      && !IsLive(r.store, "A") && IsLive(r.store, "B") && IsLive(r.store, "C")
  {
  }

  /** The store after misses on A and B with capacity 2. */
  lemma TwoMisses(a: Entry, b: Entry)
    ensures var s1 := Probe(Empty(), "A", a, 2, NoVNode).store;
      Probe(s1, "B", b, 2, NoVNode).store == Store(map["A" := Some(a), "B" := Some(b)], ["A", "B"])
  {
  }

  /** A hit on A in the store [A, B] moves A behind B. */
  lemma HitOnOldest(a: Entry, b: Entry)
    ensures var s := Store(map["A" := Some(a), "B" := Some(b)], ["A", "B"]);
      Probe(s, "A", a, 2, NoVNode).store == Store(s.cache, ["B", "A"])
  {
  }

  /** A miss on C in the store [B, A] with capacity 2 evicts and destroys B. */
  lemma MissEvictsB(a: Entry, b: Entry, c: Entry)
    ensures var r := Probe(Store(map["A" := Some(a), "B" := Some(b)], ["B", "A"]), "C", c, 2, NoVNode);
      && r.store.keys == ["A", "C"]
      && r.destroyed == [b.instance]
      && !IsLive(r.store, "B") && IsLive(r.store, "A") && IsLive(r.store, "C")
  {
  }

  /** Capacity 2, misses on A and B, a hit on A, a miss on C: B is evicted, A and C stay. */
  lemma RefreshScenario(a: Entry, b: Entry, c: Entry)
    ensures var s1 := Probe(Empty(), "A", a, 2, NoVNode).store;
      var s2 := Probe(s1, "B", b, 2, NoVNode).store;
      var s3 := Probe(s2, "A", a, 2, NoVNode).store;
      var r := Probe(s3, "C", c, 2, NoVNode);
      && r.store.keys == ["A", "C"]
      && r.destroyed == [b.instance]
      && !IsLive(r.store, "B") && IsLive(r.store, "A") && IsLive(r.store, "C")
  {
    TwoMisses(a, b);
    HitOnOldest(a, b);
    MissEvictsB(a, b, c);
  }
}
